=== FILE: README.md ===
# Roblox Studio Mobile relay — a Dafny model of its request-handling core

The relay (`server.js`) is an Express service. A mobile client sends it a
workspace, as JSON, and a Roblox Open Cloud API key. The relay checks the
request, turns the workspace into a small XML place file, forwards it to the
Roblox API with the caller's key, and answers with a JSON envelope. This project
models the decision logic inside the handlers and proves properties of it:

- `validation.dfy` (`Validation`): the ordered checks of `POST /api/v1/publish`.
  They cover the `x-api-key` header (present, at least 20 characters), the
  `action` (exactly `"publish"` or `"create"`), the `workspaceData`, and the
  `placeId`, which only `publish` needs. The first failing check decides a 401
  or a 400.
- `rbxm.dfy` (`Rbxm`): `convertToRBXM`, as a method with a loop that appends one
  `<Item>` fragment per object. It is proved equal to a recursive definition of
  the document. A reader for the document gives a round trip whenever no field
  needs XML escaping. A concrete name shows what the missing escaping allows.
- `envelopes.dfy` (`Envelopes`): the success envelopes, the place and dashboard
  URLs built from ids, the `versionNumber || 'latest'` default, and the `places`
  list of `GET /api/v1/places`.
- `upstream_errors.dfy` (`UpstreamErrors`): the `catch` of the publish handler.
  It maps a caught error to a status and a failure envelope.
- `relay.dfy` (`Relay`): both handlers assembled from these pieces. The upstream
  API and `JSON.parse` are parameters. Each handler returns its response and the
  outbound calls it made, in order.
- `js_values.dfy` (`JsValues`): JSON values with JavaScript truthiness and the
  text that `${x}` gives. This includes the decimal text of an integer and its
  inverse. `wrappers.dfy` holds `Option` and `Result`. `seq_facts.dfy` holds
  generic facts about concatenation used by the document proofs.

Request fields are JSON values, not strings. So `!x` is true for an absent
field, `null`, `false`, `0` and `""`, as in JavaScript. A numeric `placeId` is
written into URLs in decimal. A few points of the code's behaviour that a
reader might not expect:
- Each object's class name goes into a `class` attribute of an `<Item>`
  element. It is not the element's tag.
- "Missing" workspace data means any falsy value.
- `GET /api/v1/places` checks only that a key is present, while publishing
  checks its length. `Relay.KeyLengthCheckedOnlyOnPublish` states this
  difference.
- `publish` puts the place id in both the universe slot and the place slot of
  the upstream URL. `Relay.PublishUsesPlaceIdAsUniverse` states this.

## Model

| member | source | states |
|---|---|---|
| `JsValues.Truthy` | server.js:103-124 | a value is falsy exactly when it is `undefined`, `null`, `false`, `0` or `""` |
| `JsValues.Text` | server.js:54-56 | `${v}`: "undefined", "null", "true"/"false", the decimal text of a number, a string itself, "[object Object]" for an object, and for an array its elements' texts joined by commas, with `null` and `undefined` elements empty |
| `JsValues.IntText` | server.js:168 | a non-negative integer is written as its decimal text, digits that read back as it; a negative one as `-` followed by the decimal text of its magnitude, with no leading zero |
| `JsValues.JoinComma` | server.js:54-56 | a non-empty join is the first part followed by each later part preceded by a comma, front to back, whatever the parts hold; its length is the parts' total plus the commas; parts without commas are read back by splitting at the commas |
| `JsValues.JoinThree` | server.js:54-56 | three parts give `x,m,y`, with a middle part that holds commas of its own (a nested array's text) kept whole |
| `JsValues.ArrayText` | server.js:54-56 | `${[1, 2]}` is "1,2" |
| `JsValues.NullElementText` | server.js:54-56 | a `null` array element leaves its slot empty: `${[null, "a"]}` is ",a" |
| `JsValues.NatText` | server.js:54 | the text of an index is one or more decimal digits, with no leading zero except for 0 itself |
| `JsValues.DigitsValueOfNatText` | server.js:54 | reading the decimal text of n back gives n |
| `JsValues.NatTextInjective` | server.js:54 | different indexes get different texts, so the referents `OBJ{i}` are distinct |
| `JsValues.Or` | server.js:169 | `a \|\| b` is `a` when `a` is truthy and `b` when it is not; it is truthy iff one of them is |
| `Rbxm.ConvertToRbxm` | server.js:33-67 | the method's loop builds exactly the header, then one fragment per object in order, then the footer |
| `Rbxm.LayoutDelimited` | server.js:39-64 | in the fixed text, a class name is followed by `"` and a name by `<` |
| `Rbxm.EmptyDocument` | server.js:39-64 | no objects gives the header immediately followed by the footer |
| `Rbxm.FragmentsAppend` | server.js:52-59 | the fragments of `a + b` are those of `a`, then those of `b` numbered on from `\|a\|` |
| `Rbxm.FragmentsSplit` | server.js:52-59 | the object at position `\|a\|` is written between the fragments before it and after it, with index `\|a\|` |
| `Rbxm.FragmentsSnoc` | server.js:53-58 | one more iteration appends the next object's fragment, with its zero-based index |
| `Rbxm.FragmentAt` | server.js:52-59 | the i-th fragment of the document is that of object i, with referent `OBJ{i}`, after the earlier fragments and before the later ones |
| `Rbxm.ParseItemsStep` | server.js:53-58 | a fragment whose fields need no escaping reads back as its class name and name, then reading goes on |
| `Rbxm.ParseFragments` | server.js:52-59 | fragments whose fields need no escaping read back as the objects' pairs, in order |
| `Rbxm.ParseRender` | server.js:39-64 | with any template delimited like the real one, the document reads back as the objects' pairs |
| `Rbxm.ParseDocument` | server.js:39-64 | round trip: the document of objects whose fields need no escaping reads back as their pairs, in order |
| `Rbxm.UnescapedNameForgesItem` | server.js:54-56 | the names are not escaped, so one object with a crafted name gives the same document as two plain objects |
| `Rbxm.ForgedNameMisreadsIn` | server.js:56 | with any delimited template, the crafted one-object document reads back as two objects |
| `Rbxm.ForgedNameMisreads` | server.js:56 | the crafted one-object workspace's document reads back as two objects, losing the real name |
| `Validation.ActionOf` | server.js:110 | the action is `publish` exactly for the string "publish" and `create` exactly for "create" |
| `Validation.Validate` | server.js:99-129 | a rejection is 400 or 401; a 401 happens iff the key is absent or shorter than 20; acceptance happens iff key, action and workspace pass and `publish` has a truthy place id |
| `Validation.FirstFailure` | server.js:103-129 | no rejection iff every check passes; otherwise the rejection of a failing check that every earlier check passed |
| `Validation.ValidateIsFirstFailure` | server.js:103-129 | the handler's chain is the first-failing-check rule applied to the four checks in source order |
| `Validation.KeyCheckComesFirst` | server.js:103-108 | with a rejected key the verdict is 401 "Invalid or missing API Key", whatever the body |
| `Validation.ActionCheckedBeforeWorkspace` | server.js:110-122 | with a valid key, an invalid or absent action gives 400 before the workspace is looked at |
| `Validation.CreateIgnoresPlaceId` | server.js:124-129 | for `create`, the place id never changes the verdict |
| `Validation.PublishNeedsPlaceId` | server.js:124-129 | for `publish` past the earlier checks, acceptance holds iff the place id is truthy; otherwise 400 "Place ID required" |
| `Envelopes.PlaceUrlRoundTrip` | server.js:168 | the place URL is the games prefix followed by the id's text; a numeric id reads back from it |
| `Envelopes.PlaceUrlInjective` | server.js:168 | distinct numeric place ids give distinct place URLs |
| `Envelopes.VersionOrLatest` | server.js:169 | the version is the upstream's when truthy, else "latest"; it is always truthy |
| `Envelopes.PublishedEnvelope` | server.js:164-172 | success, status 200, the request's place id, its place URL from which the id reads back, the version or "latest" (always truthy), and the "updated" message |
| `Envelopes.CreatedEnvelope` | server.js:226-235 | success, status 200, the new universe id and root place id, the root place URL from which the root place id reads back, the dashboard URL from which the universe id reads back, and the "created" message |
| `Envelopes.EditUrl` | server.js:232 | the universe id is read back from between the dashboard prefix and `/overview` |
| `Envelopes.Places` | server.js:320-326 | one entry per universe, same order; each entry's URL is its own place's URL |
| `Envelopes.PlacesAppend` | server.js:320-326 | listing two batches gives the first batch's entries, then the second's |
| `UpstreamErrors.ErrorDetails` | server.js:279 | `message` if truthy, else `error` if truthy, else "Unknown error"; always truthy |
| `UpstreamErrors.Classify` | server.js:242-288 | always a failure with details; 401 and 403 become 401, any other status is kept; 404 gives "Place not found" and 429 "Rate limit exceeded", each with its fixed hint; "Roblox API error" iff the status is not 401, 403, 404 or 429; no response gives 500 "Server error" with the raw message |
| `UpstreamErrors.AuthFailureIgnoresBody` | server.js:252-258 | upstream 401 or 403 gives the same 401 envelope with the scopes hint, whatever the body |
| `UpstreamErrors.PassThrough` | server.js:276-280 | any other upstream status is answered with that status and the upstream's details |
| `Relay.VersionsUrl` | server.js:210 | both ids (at line 148, the place id twice) are read back from the version-publishing URL, the universe's first, whenever their texts hold no `/` |
| `Relay.NumericIdsReadBack` | server.js:210 | numeric ids are always read back from the version-publishing URL |
| `Relay.HandlePublish` | server.js:95-236 | a rejected request makes no call and answers with the rejection; success needs acceptance, a parsed workspace and a successful upload; an accepted `publish` whose upload succeeds answers with the published envelope for the request's place id and the reported version, after exactly one upload of the converted document; one whose upload throws answers with that error's classification; a failed creation in `create` answers with its classification after that one call; a `create` whose calls succeed answers with the created envelope for the new ids, after the creation call and then the upload to the new place |
| `Relay.PublishPlace` | server.js:138-173 | a workspace that fails to parse makes no call and answers 500 with the parse message; otherwise exactly one upload of its document, answered with the published envelope or with the classification of the upload's error |
| `Relay.CreatePlace` | server.js:179-236 | the universe is always created first; the upload to the new universe's root place follows iff creation succeeded and the workspace parsed; the response is the classification of the first error thrown (creation, then parsing, then upload), else the created envelope |
| `Relay.FirstThrown` | server.js:138-236 | no error iff no step throws; otherwise an error thrown by a step that every earlier step passed |
| `Relay.PublishFailsAtFirstThrown` | server.js:138-173 | `publish` fails iff parsing or the upload throws, with the first of these errors classified |
| `Relay.CreateFailsAtFirstThrown` | server.js:179-236 | `create` fails iff creation, parsing or the upload throws, with the first of these errors classified |
| `Relay.FailureIsFirstThrown` | server.js:138-288 | an accepted request fails iff one of its steps throws, and then answers with the classification of the first error thrown, in the action's step order |
| `Relay.AcceptedFailuresAreClassified` | server.js:238-288 | after acceptance, every failure is the classification of the first error thrown along the action's steps, one of the errors the inputs throw |
| `Relay.ParseFailureTiming` | server.js:138-207 | a parse failure gives 500 with the message; for `publish` no call was made, for `create` the universe was already created |
| `Relay.PublishUsesPlaceIdAsUniverse` | server.js:147-148 | `publish` uploads to the URL with the place id in both the universe and the place position |
| `Relay.HandleListPlaces` | server.js:296-339 | an absent or empty key gives 401; success iff a key is present and the listing succeeded, with one entry per universe in order; with a key, a failed listing gives 500 with the raw message |
| `Relay.KeyLengthCheckedOnlyOnPublish` | server.js:300-305 | a one-character key can list places but gets 401 from the publish endpoint |

## Left out

- Express wiring, CORS, the 50 MB body limit, `app.listen` and the 404 catch-all are framework plumbing.
- `GET /` returns a constant descriptor. `GET /health` returns a clock reading. Neither is modelled.
- The `express-rate-limit` limiter is a foreign library with wall-clock windows.
- The `axios` calls are not modelled, only their outcomes. These are parameters: the ids from the creation call, the `versionNumber` from the version call, the universes of the listing, or the error each throws. Outbound headers are not modelled. The creation request body is not modelled either, since its display name depends on the date.
- `JSON.parse(workspaceData)` and reading its `Objects` are foreign. Their outcome is a parameter: the objects, or the message of the error thrown.
- `Date.now`, `processingTime`, `toLocaleDateString` and `toISOString` read the clock. The `processingTime` field of the success envelopes is omitted.
- Console logging is not modelled. The body model omits `userId` and `userName`, whose only use is the log line at server.js:131.
- JsValues.Text: writes every object as "[object Object]", so values whose `String()` throws are not modelled. An object with a non-callable own `toString` (for example `{"toString": 1}`) makes `${x}` throw. As a `ClassName` or `Name` that gives a 500 from the conversion; as `userName`, `userId` or `placeId` the log lines at server.js:131-132 throw, which gives a 500 before any upstream call.
- JsValues.Text: writes every decimal digit of an integer, which `String()` does not do for large numbers. Two separate effects are not captured. First, `JSON.parse` rounds an integer above 2^53 that a double cannot hold to the nearest double. Second, `String()` writes the shortest digit string that reads back as the same double, padded with zeros, so even an exactly held value such as 2^60 is written `1152921504606847000`, not `1152921504606846976`.
- JSON numbers are integers here. Fractions, and the exponent form JavaScript uses for magnitudes of 1e21 and up, are not modelled.
- Validation.Validate: measures the key in Unicode characters, while JavaScript counts UTF-16 code units. The two differ for characters outside the Basic Multilingual Plane.
- UpstreamErrors.Classify: assumes the upstream error body can be read for a passed-through status. There a `null` body makes `data.message` at server.js:279 throw inside the `catch`, and the error escapes the handler; that case is not modelled. For 401, 403, 404 and 429 the body is never read (server.js:252-274), and the model's envelope is exact.
- UpstreamErrors.Classify: passes any status through. Express would throw for a status outside 100-999, which the model does not capture.

=== FILE: envelopes.dfy ===
/**
 * The JSON envelopes the relay answers with, and the URLs it builds from ids.
 * An id is written into a URL as `${id}` writes it.
 */
module Envelopes {
  import opened Wrappers
  import opened JsValues
  import opened SeqFacts

  /** One entry of the `places` list of `GET /api/v1/places`. */
  datatype PlaceEntry = PlaceEntry(universeId: JsValue, placeId: JsValue, name: JsValue, description: JsValue, url: string)

  /** A universe as the upstream listing returns it (`Undefined` for absent fields). */
  datatype Universe = Universe(id: JsValue, rootPlaceId: JsValue, displayName: JsValue, description: JsValue)

  /** A response body with its HTTP status. `Failure` is `{success: false, error,
      details}` (`details` absent when `None`); the others carry `success: true`
      and answer with status 200. */
  datatype Response =
    | Failure(status: int, error: string, details: Option<JsValue>)
    | Published(placeId: JsValue, placeUrl: string, versionNumber: JsValue, message: string)
    | Created(universeId: JsValue, placeId: JsValue, placeUrl: string, editUrl: string, message: string)
    | Listed(places: seq<PlaceEntry>)
  {
    /** The envelope's `success` field. */
    predicate Success() {
      !Failure?
    }

    function HttpStatus(): int {
      if Failure? then status else 200
    }
  }

  const PublishedMessage: string := "Place updated successfully!"
  const CreatedMessage: string := "New place created successfully!"

  const GamesPrefix: string := "https://www.roblox.com/games/"
  const DashboardPrefix: string := "https://create.roblox.com/dashboard/creations/experiences/"
  const DashboardSuffix: string := "/overview"

  /** The public page of a place. */
  function PlaceUrl(placeId: JsValue): string {
    GamesPrefix + Text(placeId)
  }

  /** The creator-dashboard page of a universe; the universe id is read back from it. */
  function EditUrl(universeId: JsValue): (r: string)
    ensures UniverseIdOfEditUrl(r) == Some(Text(universeId))
  {
    Middle(DashboardPrefix, Text(universeId), DashboardSuffix);
    DashboardPrefix + Text(universeId) + DashboardSuffix
  }

  /** The id written between the prefix and the suffix of a dashboard URL, if the
      URL is one. */
  function UniverseIdOfEditUrl(url: string): Option<string> {
    if DashboardPrefix <= url && |DashboardPrefix| + |DashboardSuffix| <= |url|
       && url[|url| - |DashboardSuffix|..] == DashboardSuffix
    then Some(url[|DashboardPrefix|..|url| - |DashboardSuffix|])
    else None
  }

  /** The id written at the end of a place page URL, if the URL is one. */
  function PlaceIdOfUrl(url: string): Option<string> {
    if GamesPrefix <= url then Some(url[|GamesPrefix|..]) else None
  }

  /** A place page URL gives back the text of its id; for a numeric id, the
      number itself. */
  lemma PlaceUrlRoundTrip(placeId: JsValue)
    ensures PlaceIdOfUrl(PlaceUrl(placeId)) == Some(Text(placeId))
    ensures placeId.Num? && placeId.n >= 0 ==>
              AllDigits(PlaceIdOfUrl(PlaceUrl(placeId)).value)
              && DigitsValue(PlaceIdOfUrl(PlaceUrl(placeId)).value) == placeId.n
  {
    var url := PlaceUrl(placeId);
    assert GamesPrefix <= url;
    assert url[|GamesPrefix|..] == Text(placeId);
  }

  /** Distinct non-negative numeric place ids have distinct place URLs. */
  lemma PlaceUrlInjective(a: nat, b: nat)
    requires PlaceUrl(Num(a)) == PlaceUrl(Num(b))
    ensures a == b
  {
    PlaceUrlRoundTrip(Num(a));
    PlaceUrlRoundTrip(Num(b));
  }

  /** `versionNumber || 'latest'`: the upstream version number when it is truthy,
      otherwise the string "latest". */
  function VersionOrLatest(versionNumber: JsValue): (r: JsValue)
    ensures Truthy(r)
    ensures Truthy(versionNumber) ==> r == versionNumber
    ensures !Truthy(versionNumber) ==> r == Str("latest")
  {
    Or(versionNumber, Str("latest"))
  }

  /** The success envelope of `publish`: the request's place id, its page, and the
      version the upstream reports. */
  function PublishedEnvelope(placeId: JsValue, versionNumber: JsValue): (r: Response)
    ensures r.Success() && r.HttpStatus() == 200
    ensures r.Published? && r.placeId == placeId && PlaceIdOfUrl(r.placeUrl) == Some(Text(placeId))
    ensures Truthy(r.versionNumber)
    ensures r.versionNumber == VersionOrLatest(versionNumber) && r.message == PublishedMessage
  {
    PlaceUrlRoundTrip(placeId);
    Published(placeId, PlaceUrl(placeId), VersionOrLatest(versionNumber), PublishedMessage)
  }

  /** The success envelope of `create`: the new universe, its root place and both pages. */
  function CreatedEnvelope(universeId: JsValue, rootPlaceId: JsValue): (r: Response)
    ensures r.Success() && r.HttpStatus() == 200
    ensures r.Created? && r.universeId == universeId && r.placeId == rootPlaceId
    ensures PlaceIdOfUrl(r.placeUrl) == Some(Text(rootPlaceId))
    ensures DashboardPrefix <= r.editUrl
    ensures UniverseIdOfEditUrl(r.editUrl) == Some(Text(universeId))
    ensures r.message == CreatedMessage
  {
    PlaceUrlRoundTrip(rootPlaceId);
    Created(universeId, rootPlaceId, PlaceUrl(rootPlaceId), EditUrl(universeId), CreatedMessage)
  }

  /** The entry listed for one universe: its root place and that place's page. */
  function PlaceOf(u: Universe): PlaceEntry {
    PlaceEntry(u.id, u.rootPlaceId, u.displayName, u.description, PlaceUrl(u.rootPlaceId))
  }

  /** `data.map(universe => ...)`: one entry per universe, in the same order. */
  function Places(universes: seq<Universe>): (r: seq<PlaceEntry>)
    ensures |r| == |universes|
    ensures forall i :: 0 <= i < |r| ==> r[i] == PlaceOf(universes[i])
    ensures forall i :: 0 <= i < |r| ==> r[i].url == PlaceUrl(r[i].placeId) && r[i].universeId == universes[i].id
    decreases |universes|
  {
    if universes == [] then [] else [PlaceOf(universes[0])] + Places(universes[1..])
  }

  /** Listing two batches of universes lists the first batch's places, then the second's. */
  lemma PlacesAppend(a: seq<Universe>, b: seq<Universe>)
    ensures Places(a + b) == Places(a) + Places(b)
  {
  }
}

=== FILE: js_values.dfy ===
/**
 * The JSON values that reach the relay through a request body or an upstream
 * response, with the two JavaScript conversions the relay applies to them:
 * truthiness (`!x`, `x || y`) and conversion to text inside a template
 * literal (`${x}`).
 */
module JsValues {
  import opened SeqFacts

  /** A JSON value as JavaScript sees it after `JSON.parse`. `Undefined` stands
      for a field that is absent. Numbers are integers (see README). */
  datatype JsValue =
    | Undefined
    | Null
    | Bool(b: bool)
    | Num(n: int)
    | Str(s: string)
    | Arr(elems: seq<JsValue>)
    | Obj

  /** The JSON values JavaScript treats as false in a condition. */
  const Falsy: set<JsValue> := {Undefined, Null, Bool(false), Num(0), Str("")}

  /** JavaScript truthiness: exactly the five values of `Falsy` are falsy. */
  predicate Truthy(v: JsValue): (t: bool)
    ensures t <==> v !in Falsy
  {
    match v
    case Undefined => false
    case Null => false
    case Bool(b) => b
    case Num(n) => n != 0
    case Str(s) => s != ""
    case Arr(_) => true
    case Obj => true
  }

  /** `a || b` on JSON values: the first operand if it is truthy, else the second. */
  function Or(a: JsValue, b: JsValue): (r: JsValue)
    ensures Truthy(r) <==> Truthy(a) || Truthy(b)
    ensures r == a || r == b
    ensures Truthy(a) ==> r == a
    ensures !Truthy(a) ==> r == b
  {
    if Truthy(a) then a else b
  }

  predicate IsDigit(c: char) {
    '0' <= c <= '9'
  }

  function DigitChar(d: nat): (c: char)
    requires d < 10
    ensures IsDigit(c)
  {
    ('0' as int + d) as char
  }

  function DigitValue(c: char): (d: nat)
    requires IsDigit(c)
    ensures d < 10 && DigitChar(d) == c
  {
    c as int - '0' as int
  }

  predicate AllDigits(s: string) {
    forall i :: 0 <= i < |s| ==> IsDigit(s[i])
  }

  /** The decimal digits of `n`, most significant first, as `Number.prototype.toString`
      writes a non-negative integer. */
  function NatText(n: nat): (s: string)
    ensures 1 <= |s| && AllDigits(s)
    ensures s[0] == '0' ==> s == "0"
    decreases n
  {
    if n < 10 then [DigitChar(n)] else NatText(n / 10) + [DigitChar(n % 10)]
  }

  /** The number a string of decimal digits denotes; the inverse of `NatText`. */
  function DigitsValue(s: string): (n: nat)
    requires AllDigits(s)
    decreases |s|
  {
    if s == [] then 0 else DigitsValue(s[..|s| - 1]) * 10 + DigitValue(s[|s| - 1])
  }

  lemma {:induction false} DigitsValueOfNatText(n: nat)
    ensures DigitsValue(NatText(n)) == n
    decreases n
  {
    var s := NatText(n);
    if n < 10 {
      assert s[..|s| - 1] == [];
    } else {
      DigitsValueOfNatText(n / 10);
      assert s[..|s| - 1] == NatText(n / 10);
    }
  }

  /** Distinct numbers have distinct decimal texts. */
  lemma NatTextInjective(a: nat, b: nat)
    requires NatText(a) == NatText(b)
    ensures a == b
  {
    DigitsValueOfNatText(a);
    DigitsValueOfNatText(b);
  }

  /** An integer as `${n}` writes it: an optional minus sign, then its digits. */
  function IntText(n: int): (s: string)
    ensures n >= 0 ==> AllDigits(s) && DigitsValue(s) == n
    ensures n < 0 ==> |s| >= 2 && s[0] == '-' && AllDigits(s[1..]) && DigitsValue(s[1..]) == -n
    ensures n >= 0 ==> s == NatText(n)
    ensures n < 0 ==> s[1..] == NatText(-n)
  {
    if n < 0 then DigitsValueOfNatText(-n); assert ("-" + NatText(-n))[1..] == NatText(-n);
    "-" + NatText(-n) else DigitsValueOfNatText(n); NatText(n)
  }

  /** The total length of some texts. */
  function TotalLength(parts: seq<string>): nat
    decreases |parts|
  {
    if parts == [] then 0 else TotalLength(parts[..|parts| - 1]) + |parts[|parts| - 1]|
  }

  /** Each text preceded by a comma, front to back: what follows the first part
      in a join. */
  function CommaEach(parts: seq<string>): string
    decreases |parts|
  {
    if parts == [] then "" else "," + parts[0] + CommaEach(parts[1..])
  }

  /** Appending one more text to `CommaEach` adds one comma and that text. */
  lemma {:induction false} CommaEachSnoc(xs: seq<string>, y: string)
    ensures CommaEach(xs + [y]) == CommaEach(xs) + "," + y
    decreases |xs|
  {
    if xs == [] {
      assert CommaEach([y]) == "," + y + CommaEach([]);
    } else {
      assert (xs + [y])[1..] == xs[1..] + [y];
      CommaEachSnoc(xs[1..], y);
      Assoc("," + xs[0], CommaEach(xs[1..]), "," + y);
    }
  }

  /** Joining one more text onto `first` followed by the comma-led `rest`. */
  lemma JoinOneMore(first: string, rest: seq<string>, last: string)
    ensures first + CommaEach(rest) + "," + last == first + CommaEach(rest + [last])
  {
    CommaEachSnoc(rest, last);
    Assoc(first, CommaEach(rest), "," + last);
  }

  /** `Array.prototype.join(",")` over the texts of the elements. Every part is
      kept, in order, with one comma between neighbours; parts without commas are
      read back by `SplitComma`. */
  function JoinComma(parts: seq<string>): (s: string)
    ensures |parts| >= 1 ==> s == parts[0] + CommaEach(parts[1..])
    ensures |parts| >= 1 ==> |s| == TotalLength(parts) + |parts| - 1
    ensures |parts| >= 1 && (forall i :: 0 <= i < |parts| ==> ',' !in parts[i]) ==> SplitComma(s) == parts
    ensures |parts| == 1 ==> s == parts[0]
    ensures |parts| >= 1 ==> parts[0] <= s
    ensures |parts| >= 1 ==> |parts[|parts| - 1]| <= |s| && s[|s| - |parts[|parts| - 1]|..] == parts[|parts| - 1]
    decreases |parts|
  {
    if |parts| == 0 then ""
    else if |parts| == 1 then parts[0]
    else
      var init, last := JoinComma(parts[..|parts| - 1]), parts[|parts| - 1];
      SplitAtLastComma(init, last);
      assert parts[..|parts| - 1] + [last] == parts;
      assert parts[..|parts| - 1][1..] + [last] == parts[1..];
      JoinOneMore(parts[0], parts[..|parts| - 1][1..], last);
      init + "," + last
  }

  /** Three parts are joined with two commas, whatever the parts hold: a middle
      part with commas of its own (a nested array's text, say) is kept whole. */
  lemma JoinThree(x: string, m: string, y: string)
    ensures JoinComma([x, m, y]) == x + "," + m + "," + y
  {
    var parts := [x, m, y];
    assert parts[1..][1..][1..] == [];
    assert CommaEach(parts[1..][1..]) == "," + y;
    AppendEmpty("," + y);
    assert CommaEach(parts[1..]) == "," + m + ("," + y);
    Assoc("," + m, ",", y);
    Assoc(x, "," + m, "," + y);
    Assoc(x, ",", m);
  }

  /** Position of the last comma in `s`, or -1 if there is none. */
  function LastComma(s: string): (k: int)
    ensures -1 <= k < |s|
    ensures k >= 0 ==> s[k] == ','
    ensures forall j :: k < j < |s| ==> s[j] != ','
    decreases |s|
  {
    if s == [] then -1
    else if s[|s| - 1] == ',' then |s| - 1
    else LastComma(s[..|s| - 1])
  }

  /** Splits a text at its commas: the reader of `JoinComma`. */
  function SplitComma(s: string): seq<string>
    decreases |s|
  {
    var k := LastComma(s);
    if k < 0 then [s] else SplitComma(s[..k]) + [s[k + 1..]]
  }

  /** In `a + "," + b` with no comma in `b`, the last comma is the one after `a`. */
  lemma SplitAtLastComma(a: string, b: string)
    ensures ',' !in b ==> LastComma(a + "," + b) == |a|
    ensures (a + "," + b)[..|a|] == a && (a + "," + b)[|a| + 1..] == b
  {
    var s := a + "," + b;
    assert s[|a|] == ',';
    assert forall j :: |a| < j < |s| ==> s[j] == b[j - |a| - 1];
  }

  /** The text that `${v}` (that is, `String(v)`) gives for a JSON value. Inside an
      array, `null` and `undefined` elements become the empty string. */
  function Text(v: JsValue): (r: string)
    ensures v.Undefined? ==> r == "undefined"
    ensures v.Null? ==> r == "null"
    ensures v.Bool? ==> r == (if v.b then "true" else "false")
    ensures v.Num? ==> r == IntText(v.n)
    ensures v.Num? && v.n >= 0 ==> r == NatText(v.n)
    ensures v.Str? ==> r == v.s
    ensures v == Arr([]) ==> r == ""
    ensures v.Arr? && |v.elems| == 1 && v.elems[0].Str? ==> r == v.elems[0].s
    ensures v.Arr? ==> r == JoinComma(seq(|v.elems|, i requires 0 <= i < |v.elems| =>
                                 if v.elems[i].Undefined? || v.elems[i].Null? then "" else Text(v.elems[i])))
    ensures v.Obj? ==> r == "[object Object]"
    decreases v
  {
    match v
    case Undefined => "undefined"
    case Null => "null"
    case Bool(b) => if b then "true" else "false"
    case Num(n) => IntText(n)
    case Str(s) => s
    case Arr(xs) =>
      JoinComma(seq(|xs|, i requires 0 <= i < |xs| =>
        if xs[i].Undefined? || xs[i].Null? then "" else Text(xs[i])))
    case Obj => "[object Object]"
  }

  /** An array's text is its elements' texts joined by commas: `[1, 2]` gives "1,2". */
  lemma ArrayText()
    ensures Text(Arr([Num(1), Num(2)])) == "1,2"
  {
    assert NatText(1) == "1" && NatText(2) == "2";
    var two := [Num(1), Num(2)];
    var texts := seq(2, i requires 0 <= i < 2 => if two[i].Undefined? || two[i].Null? then "" else Text(two[i]));
    assert texts == ["1", "2"];
    JoinPair("1", "2");
  }

  /** A `null` element of an array leaves its slot empty. */
  lemma NullElementText()
    ensures Text(Arr([Null, Str("a")])) == ",a"
  {
    var mixed := [Null, Str("a")];
    var texts := seq(2, i requires 0 <= i < 2 => if mixed[i].Undefined? || mixed[i].Null? then "" else Text(mixed[i]));
    assert texts == ["", "a"];
    JoinPair("", "a");
  }

  /** Two parts are joined with one comma between them. */
  lemma JoinPair(a: string, b: string)
    ensures JoinComma([a, b]) == a + "," + b
  {
    assert [a, b][..1] == [a];
  }
}

=== FILE: rbxm.dfy ===
/**
 * `convertToRBXM`: the workspace document, already parsed, is written out as
 * a fixed XML envelope holding one `<Item>` element per object, in order.
 * The class name and the name are spliced into the text as they are, with no
 * escaping; the referent of the object at position i is `OBJ` followed by i.
 *
 * The fixed text is gathered in a `Template`; the definitions and lemmas are
 * stated for any template whose pieces start with the delimiters the
 * converter relies on, and `Layout` is the one `convertToRBXM` writes.
 */
module Rbxm {
  import opened Wrappers
  import opened JsValues
  import opened SeqFacts

  /** One entry of the parsed `Objects` array: its `ClassName` and `Name` fields
      (`Undefined` where the entry lacks the field). */
  datatype WorkspaceObject = WorkspaceObject(className: JsValue, name: JsValue)

  /** The fixed text of a document: what comes before the first object, the
      four pieces around an object's class name, index and name, and what comes
      after the last object. */
  datatype Template = Template(
    header: string,
    itemOpen: string,
    referentOpen: string,
    nameOpen: string,
    itemClose: string,
    footer: string)

  /** The text `convertToRBXM` writes: XML declaration, root, meta, a model named
      ImportedWorkspace holding a folder named Objects; per object an `Item` with
      its class, its referent and a `Name` string property. */
  const Layout: Template := Template(
    header :=
      "<?xml version=\"1.0\" encoding=\"UTF-8\"?>\n"
      + "<roblox version=\"4\">\n"
      + "<Meta name=\"ExternalSourceAssetFormat\" value=\"Binary\"/>\n"
      + "<Item class=\"Model\" referent=\"ROOT\">\n"
      + "    <Properties>\n"
      + "        <string name=\"Name\">ImportedWorkspace</string>\n"
      + "    </Properties>\n"
      + "    <Item class=\"Folder\" referent=\"ITEMS\">\n"
      + "        <Properties>\n"
      + "            <string name=\"Name\">Objects</string>\n"
      + "        </Properties>",
    itemOpen := "\n" + "        <Item class=\"",
    referentOpen := "\" referent=\"OBJ",
    nameOpen := "\">\n" + "            <Properties>\n" + "                <string name=\"Name\">",
    itemClose := "</string>\n" + "            </Properties>\n" + "        </Item>",
    footer := "\n    </Item>\n" + "</Item>\n" + "</roblox>")

  /** The delimiters a reader of the document relies on: an object's class name
      ends at the `"` that opens the referent, its name at the `<` of `</string>`. */
  predicate Delimited(t: Template) {
    t.itemOpen != [] && t.referentOpen != [] && t.referentOpen[0] == '"' && t.itemClose != [] && t.itemClose[0] == '<'
  }

  lemma LayoutDelimited()
    ensures Delimited(Layout)
  {
  }

  /** What follows the class name of the object numbered `index`: its referent
      `OBJ{index}` and the opening of its `Name` property. */
  function Tag(t: Template, index: nat): string {
    t.referentOpen + NatText(index) + t.nameOpen
  }

  /** The fragment written for the object at zero-based position `index`. */
  function Fragment(t: Template, o: WorkspaceObject, index: nat): string {
    t.itemOpen + Text(o.className) + Tag(t, index) + Text(o.name) + t.itemClose
  }

  /** The fragments of `objs`, numbered from `first`, concatenated in order. */
  function Fragments(t: Template, objs: seq<WorkspaceObject>, first: nat): string
    decreases |objs|
  {
    if objs == [] then "" else Fragment(t, objs[0], first) + Fragments(t, objs[1..], first + 1)
  }

  /** The document written with template `t` for the objects `objs`. */
  function Render(t: Template, objs: seq<WorkspaceObject>): string {
    t.header + Fragments(t, objs, 0) + t.footer
  }

  /** The whole document `convertToRBXM` returns for the objects `objs`. */
  function Document(objs: seq<WorkspaceObject>): string {
    Render(Layout, objs)
  }

  lemma FragmentsCons(t: Template, objs: seq<WorkspaceObject>, first: nat)
    requires objs != []
    ensures Fragments(t, objs, first) == Fragment(t, objs[0], first) + Fragments(t, objs[1..], first + 1)
  {
  }

  lemma {:induction false} FragmentsAppend(t: Template, a: seq<WorkspaceObject>, b: seq<WorkspaceObject>, first: nat)
    ensures Fragments(t, a + b, first) == Fragments(t, a, first) + Fragments(t, b, first + |a|)
    decreases |a|
  {
    if a == [] {
      assert a + b == b;
      AppendEmpty(Fragments(t, b, first));
    } else {
      assert (a + b)[0] == a[0];
      assert (a + b)[1..] == a[1..] + b;
      FragmentsCons(t, a + b, first);
      FragmentsAppend(t, a[1..], b, first + 1);
      FragmentsCons(t, a, first);
      Assoc(Fragment(t, a[0], first), Fragments(t, a[1..], first + 1), Fragments(t, b, first + |a|));
    }
  }

  lemma FragmentsSplit(t: Template, a: seq<WorkspaceObject>, x: WorkspaceObject, b: seq<WorkspaceObject>, first: nat)
    ensures Fragments(t, a + [x] + b, first)
         == Fragments(t, a, first) + Fragment(t, x, first + |a|) + Fragments(t, b, first + |a| + 1)
  {
    assert a + [x] + b == a + ([x] + b);
    FragmentsAppend(t, a, [x] + b, first);
    assert ([x] + b)[0] == x;
    assert ([x] + b)[1..] == b;
    FragmentsCons(t, [x] + b, first + |a|);
    Assoc(Fragments(t, a, first), Fragment(t, x, first + |a|), Fragments(t, b, first + |a| + 1));
  }

  lemma FragmentsAt(t: Template, objs: seq<WorkspaceObject>, i: nat)
    requires i < |objs|
    ensures Fragments(t, objs, 0)
         == Fragments(t, objs[..i], 0) + Fragment(t, objs[i], 0 + |objs[..i]|) + Fragments(t, objs[i + 1..], 0 + |objs[..i]| + 1)
  {
    var a, x, b := objs[..i], objs[i], objs[i + 1..];
    assert objs == a + [x] + b;
    FragmentsSplit(t, a, x, b, 0);
  }

  /** Between the header and the footer, the document holds the fragments of the
      objects before position i, then the fragment of object i, which carries the
      referent `OBJ{i}`, then the fragments of the later objects. */
  lemma FragmentAt(objs: seq<WorkspaceObject>, i: nat)
    requires i < |objs|
    ensures Document(objs)
         == Layout.header
            + (Fragments(Layout, objs[..i], 0) + Fragment(Layout, objs[i], i) + Fragments(Layout, objs[i + 1..], i + 1))
            + Layout.footer
  {
    FragmentsAt(Layout, objs, i);
    assert |objs[..i]| == i;
  }

  /** The empty workspace gives the header immediately followed by the footer. */
  lemma EmptyDocument()
    ensures Document([]) == Layout.header + Layout.footer
  {
    AppendEmpty(Layout.header);
  }

  lemma FragmentsSnoc(t: Template, objs: seq<WorkspaceObject>, i: nat)
    requires i < |objs|
    ensures Fragments(t, objs[..i + 1], 0) == Fragments(t, objs[..i], 0) + Fragment(t, objs[i], i)
  {
    var a, x := objs[..i], objs[i];
    assert objs[..i + 1] == a + [x] + [];
    FragmentsSplit(t, a, x, [], 0);
    AppendEmpty(Fragments(t, a, 0) + Fragment(t, x, i));
  }

  /** `convertToRBXM` after `JSON.parse`: start from the header, append one
      fragment per object in order, then the footer. */
  method ConvertToRbxm(objects: seq<WorkspaceObject>) returns (xml: string)
    ensures xml == Document(objects)
  {
    xml := Layout.header;
    AppendEmpty(Layout.header);
    for index := 0 to |objects|
      invariant xml == Layout.header + Fragments(Layout, objects[..index], 0)
    {
      var done, next := Fragments(Layout, objects[..index], 0), Fragment(Layout, objects[index], index);
      FragmentsSnoc(Layout, objects, index);
      Assoc(Layout.header, done, next);
      xml := xml + next;
    }
    assert objects[..|objects|] == objects;
    xml := xml + Layout.footer;
  }

  // ---------------------------------------------------------------------------
  // Reading a document back.

  /** A character XML requires escaped in text or in a quoted attribute. */
  predicate NeedsEscape(c: char) {
    c == '<' || c == '>' || c == '&' || c == '"' || c == '\''
  }

  predicate XmlSafe(s: string) {
    forall i :: 0 <= i < |s| ==> !NeedsEscape(s[i])
  }

  /** No object's class name or name needs escaping. */
  predicate AllXmlSafe(objs: seq<WorkspaceObject>) {
    forall i :: 0 <= i < |objs| ==> XmlSafe(Text(objs[i].className)) && XmlSafe(Text(objs[i].name))
  }

  /** The (class name, name) texts the document carries for `objs`. */
  function Labels(objs: seq<WorkspaceObject>): (r: seq<(string, string)>)
    ensures |r| == |objs|
    ensures forall i :: 0 <= i < |objs| ==> r[i] == (Text(objs[i].className), Text(objs[i].name))
  {
    seq(|objs|, i requires 0 <= i < |objs| => (Text(objs[i].className), Text(objs[i].name)))
  }

  /** Position of the first `stop` in `s`, or `|s|` if there is none. */
  function FieldEnd(s: string, stop: char): (k: nat)
    ensures k <= |s|
    ensures forall i :: 0 <= i < k ==> s[i] != stop
    ensures k < |s| ==> s[k] == stop
    decreases |s|
  {
    if s == [] || s[0] == stop then 0 else 1 + FieldEnd(s[1..], stop)
  }

  /** Reads the fragments of a document body, expecting the referent `OBJ{index}`
      on the first and counting up from there. */
  function ParseItems(t: Template, s: string, index: nat): Option<seq<(string, string)>>
    requires Delimited(t)
    decreases |s|
  {
    if s == [] then Some([])
    else if !(t.itemOpen <= s) then None
    else
      var r1 := s[|t.itemOpen|..];
      var k1 := FieldEnd(r1, '"');
      var tag := Tag(t, index);
      var r2 := r1[k1..];
      if !(tag <= r2) then None
      else
        var r3 := r2[|tag|..];
        var k2 := FieldEnd(r3, '<');
        var r4 := r3[k2..];
        if !(t.itemClose <= r4) then None
        else
          match ParseItems(t, r4[|t.itemClose|..], index + 1)
          case None => None
          case Some(rest) => Some([(r1[..k1], r3[..k2])] + rest)
  }

  /** Reads a whole document: the header and footer of `t` around the fragments. */
  function Parse(t: Template, doc: string): Option<seq<(string, string)>>
    requires Delimited(t)
  {
    if |t.header| + |t.footer| <= |doc| && t.header <= doc && doc[|doc| - |t.footer|..] == t.footer
    then ParseItems(t, doc[|t.header|..|doc| - |t.footer|], 0)
    else None
  }

  lemma FieldEndAt(a: string, b: string, stop: char)
    requires forall i :: 0 <= i < |a| ==> a[i] != stop
    requires b != [] && b[0] == stop
    ensures FieldEnd(a + b, stop) == |a|
  {
    assert forall i :: 0 <= i < |a| ==> (a + b)[i] == a[i];
    assert (a + b)[|a|] == b[0];
  }

  /** A fragment followed by more text, regrouped around the class name and the
      name, the two places where a reader looks for a delimiter. */
  lemma FragmentThen(t: Template, o: WorkspaceObject, index: nat, rest: string)
    ensures Fragment(t, o, index) + rest
         == t.itemOpen + (Text(o.className) + (Tag(t, index) + (Text(o.name) + (t.itemClose + rest))))
  {
    var c, g, n := Text(o.className), Tag(t, index), Text(o.name);
    Assoc(t.itemOpen + c + g + n, t.itemClose, rest);
    Assoc(t.itemOpen + c + g, n, t.itemClose + rest);
    Assoc(t.itemOpen + c, g, n + (t.itemClose + rest));
    Assoc(t.itemOpen, c, g + (n + (t.itemClose + rest)));
  }

  lemma HeadOfAppend(a: string, b: string)
    requires a != []
    ensures (a + b)[0] == a[0]
  {
  }

  /** Reading one fragment whose class name has no `"` and whose name has no `<`
      gives back that class name and that name, then reads on. */
  lemma ParseItemsStep(t: Template, c: string, n: string, rest: string, index: nat)
    requires Delimited(t)
    requires XmlSafe(c) && XmlSafe(n)
    ensures ParseItems(t, t.itemOpen + (c + (Tag(t, index) + (n + (t.itemClose + rest)))), index)
         == match ParseItems(t, rest, index + 1)
            case None => None
            case Some(more) => Some([(c, n)] + more)
  {
    var g := Tag(t, index);
    var r4 := t.itemClose + rest;
    var r3 := n + r4;
    var r2 := g + r3;
    var r1 := c + r2;
    SplitAt(t.itemOpen, r1);
    HeadOfAppend(t.referentOpen + NatText(index), t.nameOpen);
    HeadOfAppend(t.referentOpen, NatText(index));
    HeadOfAppend(g, r3);
    FieldEndAt(c, r2, '"');
    SplitAt(c, r2);
    SplitAt(g, r3);
    HeadOfAppend(t.itemClose, rest);
    FieldEndAt(n, r4, '<');
    SplitAt(n, r4);
    SplitAt(t.itemClose, rest);
  }

  lemma SafeTail(objs: seq<WorkspaceObject>)
    requires objs != [] && AllXmlSafe(objs)
    ensures XmlSafe(Text(objs[0].className)) && XmlSafe(Text(objs[0].name)) && AllXmlSafe(objs[1..])
  {
    assert forall i :: 0 <= i < |objs[1..]| ==> objs[1..][i] == objs[i + 1];
  }

  lemma LabelsCons(objs: seq<WorkspaceObject>)
    requires objs != []
    ensures Labels(objs) == [(Text(objs[0].className), Text(objs[0].name))] + Labels(objs[1..])
  {
  }

  lemma {:induction false} ParseFragments(t: Template, objs: seq<WorkspaceObject>, first: nat)
    requires Delimited(t)
    requires AllXmlSafe(objs)
    ensures ParseItems(t, Fragments(t, objs, first), first) == Some(Labels(objs))
    decreases |objs|
  {
    if objs != [] {
      var o := objs[0];
      var c, n := Text(o.className), Text(o.name);
      var rest := Fragments(t, objs[1..], first + 1);
      FragmentsCons(t, objs, first);
      FragmentThen(t, o, first, rest);
      SafeTail(objs);
      ParseItemsStep(t, c, n, rest, first);
      SafeTail(objs);
      ParseFragments(t, objs[1..], first + 1);
      LabelsCons(objs);
    }
  }

  /** Round trip: when no class name or name needs escaping, the document reads
      back as exactly the objects' (class name, name) texts, in order. */
  lemma ParseRender(t: Template, objs: seq<WorkspaceObject>)
    requires Delimited(t)
    requires AllXmlSafe(objs)
    ensures Parse(t, Render(t, objs)) == Some(Labels(objs))
  {
    Middle(t.header, Fragments(t, objs, 0), t.footer);
    ParseFragments(t, objs, 0);
  }

  lemma ParseDocument(objs: seq<WorkspaceObject>)
    requires AllXmlSafe(objs)
    ensures Delimited(Layout) && Parse(Layout, Document(objs)) == Some(Labels(objs))
  {
    LayoutDelimited();
    ParseRender(Layout, objs);
  }

  // ---------------------------------------------------------------------------
  // What the missing escaping allows.

  /** A name that closes its own item and opens the next one. */
  function ForgedName(t: Template): string {
    "a" + t.itemClose + t.itemOpen + "Part" + Tag(t, 1) + "b"
  }

  /** The two plain objects the forged name imitates. */
  function PlainPair(): (objs: seq<WorkspaceObject>)
    ensures AllXmlSafe(objs)
    ensures Labels(objs) == [("Part", "a"), ("Part", "b")]
  {
    var objs := [WorkspaceObject(Str("Part"), Str("a")), WorkspaceObject(Str("Part"), Str("b"))];
    assert XmlSafe("Part") && XmlSafe("a") && XmlSafe("b");
    objs
  }

  lemma Regroup<T>(io: seq<T>, part: seq<T>, t0: seq<T>, a: seq<T>, ic: seq<T>, t1: seq<T>, b: seq<T>)
    ensures io + part + t0 + (a + ic + io + part + t1 + b) + ic
         == (io + part + t0 + a + ic) + (io + part + t1 + b + ic)
  {
  }

  /** Because names are not escaped, one object whose name contains markup is
      written exactly as two separate objects are. */
  lemma UnescapedNameForgesItem(t: Template)
    ensures Render(t, [WorkspaceObject(Str("Part"), Str(ForgedName(t)))]) == Render(t, PlainPair())
  {
    var one := [WorkspaceObject(Str("Part"), Str(ForgedName(t)))];
    var two := PlainPair();
    FragmentsCons(t, one, 0);
    AppendEmpty(Fragment(t, one[0], 0));
    FragmentsCons(t, two, 0);
    FragmentsCons(t, two[1..], 1);
    AppendEmpty(Fragment(t, two[1], 1));
    Regroup(t.itemOpen, "Part", Tag(t, 0), "a", t.itemClose, Tag(t, 1), "b");
  }

  lemma ForgedNameMisreadsIn(t: Template)
    requires Delimited(t)
    ensures Parse(t, Render(t, [WorkspaceObject(Str("Part"), Str(ForgedName(t)))]))
         == Some([("Part", "a"), ("Part", "b")])
  {
    UnescapedNameForgesItem(t);
    ParseRender(t, PlainPair());
  }

  /** Consequently the one-object workspace with the forged name reads back as
      two objects: the document has lost the object's real name. */
  lemma ForgedNameMisreads()
    ensures Delimited(Layout)
    ensures Parse(Layout, Document([WorkspaceObject(Str("Part"), Str(ForgedName(Layout)))]))
         == Some([("Part", "a"), ("Part", "b")])
  {
    LayoutDelimited();
    ForgedNameMisreadsIn(Layout);
  }
}

=== FILE: relay.dfy ===
/**
 * The two API handlers put together from the pieces: validation, conversion,
 * the upstream calls and the error mapping. The upstream API and `JSON.parse`
 * are not modelled; their outcomes are parameters, and a handler returns the
 * response together with the upstream calls it issued, in order.
 */
module Relay {
  import opened Wrappers
  import opened JsValues
  import opened Rbxm
  import opened Validation
  import opened Envelopes
  import opened UpstreamErrors
  import opened SeqFacts

  /** An outbound call: creating a universe, or publishing a place version with
      the given URL and XML body. */
  datatype Call = CreateUniverse | UploadVersion(url: string, xml: string)

  /** The ids read from the universe-creation response. */
  datatype UniverseCreated = UniverseCreated(id: JsValue, rootPlaceId: JsValue)

  /** What the upstream does with each call the handler may issue: the creation
      call yields the new ids, the version call the reported `versionNumber`;
      either may throw instead. */
  datatype Upstream = Upstream(created: Result<UniverseCreated, Thrown>, uploaded: Result<JsValue, Thrown>)

  datatype Handled = Handled(response: Response, calls: seq<Call>)

  const VersionsPrefix: string := "https://apis.roblox.com/universes/v1/"
  const PlacesInfix: string := "/" + "places/"
  const VersionsSuffix: string := "/" + "versions?versionType=Published"

  /** The version-publishing endpoint for a place of a universe. When neither id's
      text holds a `/`, both ids are read back from it, the universe's first. */
  function VersionsUrl(universeId: JsValue, placeId: JsValue): (r: string)
    ensures VersionsPrefix <= r
    ensures '/' !in Text(universeId) && '/' !in Text(placeId) ==>
              IdsOfVersionsUrl(r) == Some((Text(universeId), Text(placeId)))
  {
    var u, p := Text(universeId), Text(placeId);
    IdsRoundTrip(u, p);
    VersionsPrefix + u + PlacesInfix + p + VersionsSuffix
  }

  /** The two ids of a version-publishing URL: the text up to the next `/` after
      the prefix, and the text up to the next `/` after `/places/`. */
  function IdsOfVersionsUrl(url: string): Option<(string, string)> {
    if !(VersionsPrefix <= url) then None
    else
      var rest := url[|VersionsPrefix|..];
      var k := FieldEnd(rest, '/');
      if !(PlacesInfix <= rest[k..]) then None
      else
        var tail := rest[k..][|PlacesInfix|..];
        var m := FieldEnd(tail, '/');
        if tail[m..] == VersionsSuffix then Some((rest[..k], tail[..m])) else None
  }

  /** Ids without a `/` are read back from the URL built from them. */
  lemma IdsRoundTrip(u: string, p: string)
    ensures '/' !in u && '/' !in p ==>
              IdsOfVersionsUrl(VersionsPrefix + u + PlacesInfix + p + VersionsSuffix) == Some((u, p))
  {
    if '/' !in u && '/' !in p {
      var tail := p + VersionsSuffix;
      var rest := u + (PlacesInfix + tail);
      Assoc(VersionsPrefix, u, PlacesInfix);
      Assoc(VersionsPrefix, u + PlacesInfix, p);
      Assoc(VersionsPrefix, u + PlacesInfix + p, VersionsSuffix);
      Assoc(u, PlacesInfix, p);
      Assoc(u, PlacesInfix + p, VersionsSuffix);
      Assoc(PlacesInfix, p, VersionsSuffix);
      assert VersionsPrefix + u + PlacesInfix + p + VersionsSuffix == VersionsPrefix + rest;
      SplitAt(VersionsPrefix, rest);
      FieldEndAt(u, PlacesInfix + tail, '/');
      SplitAt(u, PlacesInfix + tail);
      SplitAt(PlacesInfix, tail);
      FieldEndAt(p, VersionsSuffix, '/');
      SplitAt(p, VersionsSuffix);
    }
  }

  /** Numeric ids, the ones the upstream hands out, are always read back. */
  lemma NumericIdsReadBack(universeId: nat, placeId: nat)
    ensures IdsOfVersionsUrl(VersionsUrl(Num(universeId), Num(placeId))) == Some((NatText(universeId), NatText(placeId)))
  {
  }

  /** `POST /api/v1/publish`. `workspace` is the outcome of parsing `workspaceData`
      and reading its `Objects`: the objects, or the message of what was thrown. */
  function HandlePublish(apiKey: Option<string>, body: PublishBody,
                         workspace: Result<seq<WorkspaceObject>, string>, upstream: Upstream): (h: Handled)
    ensures |h.calls| <= 2
    ensures Validate(apiKey, body).Reject? ==>
              h.calls == [] && h.response == Failure(Validate(apiKey, body).status, Validate(apiKey, body).error, None)
    ensures h.response.Success() ==> Validate(apiKey, body).Accept? && workspace.Ok? && upstream.uploaded.Ok?
    ensures h.response.Published? ==>
              Validate(apiKey, body) == Accept(Publish)
              && h.response.placeId == body.placeId && h.response.placeUrl == PlaceUrl(body.placeId)
              && h.calls == [UploadVersion(VersionsUrl(body.placeId, body.placeId), Document(workspace.value))]
    ensures h.response.Created? ==>
              Validate(apiKey, body) == Accept(Create) && upstream.created.Ok?
              && h.response.universeId == upstream.created.value.id
              && h.response.placeId == upstream.created.value.rootPlaceId
              && h.calls == [CreateUniverse,
                             UploadVersion(VersionsUrl(upstream.created.value.id, upstream.created.value.rootPlaceId),
                                           Document(workspace.value))]
    ensures Validate(apiKey, body) == Accept(Publish) && workspace.Ok? && upstream.uploaded.Ok? ==>
              h.response == PublishedEnvelope(body.placeId, upstream.uploaded.value)
    ensures Validate(apiKey, body) == Accept(Publish) && workspace.Ok? && upstream.uploaded.Err? ==>
              h.response == Classify(upstream.uploaded.error)
    ensures Validate(apiKey, body) == Accept(Create) && upstream.created.Err? ==>
              h == Handled(Classify(upstream.created.error), [CreateUniverse])
    ensures Validate(apiKey, body) == Accept(Create) && upstream.created.Ok? && workspace.Ok? && upstream.uploaded.Ok? ==>
              h.response == CreatedEnvelope(upstream.created.value.id, upstream.created.value.rootPlaceId)
  {
    match Validate(apiKey, body)
    case Reject(status, error) => Handled(Failure(status, error, None), [])
    case Accept(Publish) => PublishPlace(body.placeId, workspace, upstream)
    case Accept(Create) => CreatePlace(workspace, upstream)
  }

  /** The `publish` branch: convert, then publish a version of the given place. */
  function PublishPlace(placeId: JsValue, workspace: Result<seq<WorkspaceObject>, string>, upstream: Upstream): (h: Handled)
    ensures workspace.Err? ==> h.calls == []
    ensures workspace.Ok? ==> h.calls == [UploadVersion(VersionsUrl(placeId, placeId), Document(workspace.value))]
    ensures workspace.Err? ==> h.response == Classify(NoResponse(workspace.error))
    ensures workspace.Ok? && upstream.uploaded.Err? ==> h.response == Classify(upstream.uploaded.error)
    ensures workspace.Ok? && upstream.uploaded.Ok? ==> h.response == PublishedEnvelope(placeId, upstream.uploaded.value)
  {
    match workspace
    case Err(message) => Handled(Classify(NoResponse(message)), [])
    case Ok(objects) =>
      var upload := UploadVersion(VersionsUrl(placeId, placeId), Document(objects));
      match upstream.uploaded
      case Err(e) => Handled(Classify(e), [upload])
      case Ok(versionNumber) => Handled(PublishedEnvelope(placeId, versionNumber), [upload])
  }

  /** The `create` branch: create a universe, then convert, then publish a version
      of the new universe's root place. */
  function CreatePlace(workspace: Result<seq<WorkspaceObject>, string>, upstream: Upstream): (h: Handled)
    ensures 1 <= |h.calls| <= 2 && h.calls[0] == CreateUniverse
    ensures |h.calls| == 2 <==> upstream.created.Ok? && workspace.Ok?
    ensures upstream.created.Err? ==> h.response == Classify(upstream.created.error)
    ensures upstream.created.Ok? && workspace.Err? ==> h.response == Classify(NoResponse(workspace.error))
    ensures upstream.created.Ok? && workspace.Ok? ==>
              h.calls[1] == UploadVersion(VersionsUrl(upstream.created.value.id, upstream.created.value.rootPlaceId),
                                          Document(workspace.value))
    ensures upstream.created.Ok? && workspace.Ok? && upstream.uploaded.Err? ==>
              h.response == Classify(upstream.uploaded.error)
    ensures upstream.created.Ok? && workspace.Ok? && upstream.uploaded.Ok? ==>
              h.response == CreatedEnvelope(upstream.created.value.id, upstream.created.value.rootPlaceId)
  {
    match upstream.created
    case Err(e) => Handled(Classify(e), [CreateUniverse])
    case Ok(universe) =>
      match workspace
      case Err(message) => Handled(Classify(NoResponse(message)), [CreateUniverse])
      case Ok(objects) =>
        var upload := UploadVersion(VersionsUrl(universe.id, universe.rootPlaceId), Document(objects));
        match upstream.uploaded
        case Err(e) => Handled(Classify(e), [CreateUniverse, upload])
        case Ok(_) => Handled(CreatedEnvelope(universe.id, universe.rootPlaceId), [CreateUniverse, upload])
  }

  /** The errors the inputs can throw: the parse failure, the creation call's
      error and the version call's error. */
  function Throwable(workspace: Result<seq<WorkspaceObject>, string>, upstream: Upstream): set<Thrown> {
    (if workspace.Err? then {NoResponse(workspace.error)} else {})
    + (if upstream.created.Err? then {upstream.created.error} else {})
    + (if upstream.uploaded.Err? then {upstream.uploaded.error} else {})
  }

  /** What each step of an accepted request throws, in the order the handler takes
      the steps: `publish` parses, then uploads; `create` creates the universe,
      then parses, then uploads. */
  function Steps(action: Action, workspace: Result<seq<WorkspaceObject>, string>, upstream: Upstream): seq<Option<Thrown>> {
    var parsing := if workspace.Err? then Some(NoResponse(workspace.error)) else None;
    var uploading := if upstream.uploaded.Err? then Some(upstream.uploaded.error) else None;
    var creating := if upstream.created.Err? then Some(upstream.created.error) else None;
    match action
    case Publish => [parsing, uploading]
    case Create => [creating, parsing, uploading]
  }

  /** The first error thrown along a sequence of steps: the one the `catch` sees. */
  function FirstThrown(steps: seq<Option<Thrown>>): (r: Option<Thrown>)
    ensures r.None? <==> forall i :: 0 <= i < |steps| ==> steps[i].None?
    ensures r.Some? ==> exists i :: 0 <= i < |steps| && steps[i] == r
                                    && forall j :: 0 <= j < i ==> steps[j].None?
  {
    if steps == [] then None
    else if steps[0].Some? then steps[0]
    else
      var r := FirstThrown(steps[1..]);
      assert forall i :: 0 < i < |steps| ==> steps[i] == steps[1..][i - 1];
      r
  }

  /** Once the request is accepted, every failure is the classification of one of
      the errors the inputs throw: the first one thrown along the handler's steps. */
  lemma AcceptedFailuresAreClassified(apiKey: Option<string>, body: PublishBody,
                                      workspace: Result<seq<WorkspaceObject>, string>, upstream: Upstream)
    requires Validate(apiKey, body).Accept?
    requires HandlePublish(apiKey, body, workspace, upstream).response.Failure?
    ensures exists e :: e in Throwable(workspace, upstream)
                        && HandlePublish(apiKey, body, workspace, upstream).response == Classify(e)
    ensures FirstThrown(Steps(Validate(apiKey, body).action, workspace, upstream)).Some?
    ensures HandlePublish(apiKey, body, workspace, upstream).response
         == Classify(FirstThrown(Steps(Validate(apiKey, body).action, workspace, upstream)).value)
  {
    FailureIsFirstThrown(apiKey, body, workspace, upstream);
  }

  /** An accepted request fails exactly when one of its steps throws, and the
      response is the classification of the first error thrown. */
  lemma FailureIsFirstThrown(apiKey: Option<string>, body: PublishBody,
                             workspace: Result<seq<WorkspaceObject>, string>, upstream: Upstream)
    requires Validate(apiKey, body).Accept?
    ensures var first := FirstThrown(Steps(Validate(apiKey, body).action, workspace, upstream));
            var response := HandlePublish(apiKey, body, workspace, upstream).response;
            (response.Failure? <==> first.Some?) && (first.Some? ==> response == Classify(first.value))
  {
    match Validate(apiKey, body)
    case Accept(Publish) =>
      assert HandlePublish(apiKey, body, workspace, upstream) == PublishPlace(body.placeId, workspace, upstream);
      PublishFailsAtFirstThrown(body.placeId, workspace, upstream);
    case Accept(Create) =>
      assert HandlePublish(apiKey, body, workspace, upstream) == CreatePlace(workspace, upstream);
      CreateFailsAtFirstThrown(workspace, upstream);
  }

  lemma PublishFailsAtFirstThrown(placeId: JsValue, workspace: Result<seq<WorkspaceObject>, string>, upstream: Upstream)
    ensures var first := FirstThrown(Steps(Publish, workspace, upstream));
            var response := PublishPlace(placeId, workspace, upstream).response;
            (response.Failure? <==> first.Some?) && (first.Some? ==> response == Classify(first.value))
  {
    var steps := Steps(Publish, workspace, upstream);
    assert steps[1..][1..] == [];
  }

  lemma CreateFailsAtFirstThrown(workspace: Result<seq<WorkspaceObject>, string>, upstream: Upstream)
    ensures var first := FirstThrown(Steps(Create, workspace, upstream));
            var response := CreatePlace(workspace, upstream).response;
            (response.Failure? <==> first.Some?) && (first.Some? ==> response == Classify(first.value))
  {
    var steps := Steps(Create, workspace, upstream);
    if upstream.created.Err? {
      assert FirstThrown(steps) == steps[0];
    } else if workspace.Err? {
      assert FirstThrown(steps) == FirstThrown(steps[1..]) == steps[1];
    } else {
      assert steps[1..][1..][1..] == [];
      assert FirstThrown(steps) == FirstThrown(steps[1..][1..]) == steps[2];
    }
  }

  /** `publish` converts before calling: a workspace that fails to parse makes no
      upstream call. `create` creates the universe first: the same failure comes
      after a universe was created. */
  lemma ParseFailureTiming(apiKey: Option<string>, body: PublishBody, message: string, upstream: Upstream)
    requires Validate(apiKey, body).Accept?
    ensures Validate(apiKey, body) == Accept(Publish) ==>
              HandlePublish(apiKey, body, Err(message), upstream) == Handled(Failure(500, ServerError, Some(Str(message))), [])
    ensures Validate(apiKey, body) == Accept(Create) && upstream.created.Ok? ==>
              HandlePublish(apiKey, body, Err(message), upstream) == Handled(Failure(500, ServerError, Some(Str(message))), [CreateUniverse])
  {
  }

  /** `publish` addresses the version call with the place id in both the universe
      and the place position of the URL. */
  lemma PublishUsesPlaceIdAsUniverse(apiKey: Option<string>, body: PublishBody,
                                     objects: seq<WorkspaceObject>, upstream: Upstream)
    requires Validate(apiKey, body) == Accept(Publish)
    ensures HandlePublish(apiKey, body, Ok(objects), upstream).calls
         == [UploadVersion(VersionsUrl(body.placeId, body.placeId), Document(objects))]
  {
  }

  const KeyRequired: string := "API Key required"

  /** `GET /api/v1/places`. `listing` is the outcome of the listing call: the
      universes of its `data` array, or the message of what was thrown. */
  function HandleListPlaces(apiKey: Option<string>, listing: Result<seq<Universe>, string>): (r: Response)
    ensures (apiKey.None? || apiKey.value == "") ==> r == Failure(401, KeyRequired, None)
    ensures r.Success() <==> apiKey.Some? && apiKey.value != "" && listing.Ok?
    ensures r.Failure? && r.status != 401 ==> listing.Err? && r == Failure(500, listing.error, None)
    ensures apiKey.Some? && apiKey.value != "" && listing.Err? ==> r == Failure(500, listing.error, None)
    ensures r.Success() ==> r.Listed? && |r.places| == |listing.value|
                            && forall i :: 0 <= i < |r.places| ==> r.places[i] == PlaceOf(listing.value[i])
  {
    if apiKey.None? || apiKey.value == "" then Failure(401, KeyRequired, None)
    else
      match listing
      case Err(message) => Failure(500, message, None)
      case Ok(universes) => Listed(Places(universes))
  }

  /** The listing endpoint asks only for a key to be present, where publishing asks
      for at least 20 characters: a one-character key lists places but cannot publish. */
  lemma KeyLengthCheckedOnlyOnPublish(body: PublishBody, universes: seq<Universe>)
    ensures HandleListPlaces(Some("k"), Ok(universes)).Success()
    ensures HandlePublish(Some("k"), body, Ok([]), Upstream(Err(NoResponse("")), Err(NoResponse("")))).response
         == Failure(401, InvalidKey, None)
  {
  }
}

=== FILE: seq_facts.dfy ===
/**
 * Facts about concatenation and slicing of sequences, stated over arbitrary
 * pieces so that the proofs about documents built from long literals can
 * rearrange them without looking inside the pieces.
 */
module SeqFacts {

  lemma Assoc<T>(a: seq<T>, b: seq<T>, c: seq<T>)
    ensures a + (b + c) == (a + b) + c
  {
  }

  lemma AppendEmpty<T>(a: seq<T>)
    ensures a + [] == a && [] + a == a
  {
  }

  /** Splitting `a + b` at `|a|` gives back both parts. */
  lemma SplitAt<T>(a: seq<T>, b: seq<T>)
    ensures a <= a + b
    ensures (a + b)[..|a|] == a
    ensures (a + b)[|a|..] == b
  {
  }

  /** The middle of `a + b + c` between the lengths of `a` and `c`. */
  lemma Middle<T>(a: seq<T>, b: seq<T>, c: seq<T>)
    ensures |a| + |c| <= |a + b + c|
    ensures a <= a + b + c
    ensures (a + b + c)[|a + b + c| - |c|..] == c
    ensures (a + b + c)[|a|..|a + b + c| - |c|] == b
  {
  }
}

=== FILE: upstream_errors.dfy ===
/**
 * The `catch` of `POST /api/v1/publish`: an error raised while converting the
 * workspace or calling the upstream API becomes a failure envelope.
 */
module UpstreamErrors {
  import opened Wrappers
  import opened JsValues
  import opened Envelopes

  /** The `message` and `error` fields of an upstream error body (`Undefined` when
      absent, or when the body is not an object). */
  datatype ErrorBody = ErrorBody(message: JsValue, error: JsValue)

  /** What was caught: an upstream HTTP response with its status and body, or an
      error without a response (network failure, or an exception raised locally)
      with its message. */
  datatype Thrown = Responded(status: int, data: ErrorBody) | NoResponse(message: string)

  const AuthFailed: string := "Invalid API Key or insufficient permissions"
  const ScopesHint: string := "Make sure your API Key has the required scopes: universe.place:write"
  const PlaceNotFound: string := "Place not found"
  const PlaceNotFoundHint: string := "The Place ID provided does not exist or you do not have access to it"
  const RateLimited: string := "Rate limit exceeded"
  const RateLimitedHint: string := "Too many requests. Please wait a moment and try again"
  const UpstreamFailed: string := "Roblox API error"
  const UnknownError: string := "Unknown error"
  const ServerError: string := "Server error"

  /** `data.message || data.error || 'Unknown error'`. */
  function ErrorDetails(data: ErrorBody): (d: JsValue)
    ensures Truthy(d)
    ensures Truthy(data.message) ==> d == data.message
    ensures !Truthy(data.message) && Truthy(data.error) ==> d == data.error
    ensures !Truthy(data.message) && !Truthy(data.error) ==> d == Str(UnknownError)
  {
    Or(Or(data.message, data.error), Str(UnknownError))
  }

  /** The failure envelope for a caught error. */
  function Classify(e: Thrown): (r: Response)
    ensures r.Failure? && !r.Success() && r.details.Some?
    ensures e.NoResponse? ==> r.status == 500 && r.details == Some(Str(e.message))
    ensures e.Responded? ==> r.status == e.status || (e.status == 403 && r.status == 401)
    ensures e.Responded? ==> (r.status == 401 <==> e.status == 401 || e.status == 403)
    ensures e.Responded? && r.error == UpstreamFailed <==> e.Responded? && e.status !in {401, 403, 404, 429}
    ensures r.error == UpstreamFailed ==> Truthy(r.details.value)
    ensures e.Responded? && e.status == 404 ==> r == Failure(404, PlaceNotFound, Some(Str(PlaceNotFoundHint)))
    ensures e.Responded? && e.status == 429 ==> r == Failure(429, RateLimited, Some(Str(RateLimitedHint)))
    ensures e.NoResponse? ==> r.error == ServerError
  {
    match e
    case Responded(status, data) =>
      if status == 401 || status == 403 then Failure(401, AuthFailed, Some(Str(ScopesHint)))
      else if status == 404 then Failure(404, PlaceNotFound, Some(Str(PlaceNotFoundHint)))
      else if status == 429 then Failure(429, RateLimited, Some(Str(RateLimitedHint)))
      else Failure(status, UpstreamFailed, Some(ErrorDetails(data)))
    case NoResponse(message) =>
      Failure(500, ServerError, Some(Str(message)))
  }

  /** A rejected credential gives the same envelope whatever the upstream said. */
  lemma AuthFailureIgnoresBody(s1: int, s2: int, d1: ErrorBody, d2: ErrorBody)
    requires s1 in {401, 403} && s2 in {401, 403}
    ensures Classify(Responded(s1, d1)) == Classify(Responded(s2, d2))
            == Failure(401, AuthFailed, Some(Str(ScopesHint)))
  {
  }

  /** Any other upstream status is passed through with the upstream's own message. */
  lemma PassThrough(status: int, data: ErrorBody)
    requires status !in {401, 403, 404, 429}
    ensures Classify(Responded(status, data)) == Failure(status, UpstreamFailed, Some(ErrorDetails(data)))
  {
  }
}

=== FILE: validation.dfy ===
/**
 * The checks `POST /api/v1/publish` makes before doing any work: the API key
 * header, then the action, then the workspace data, then (for `publish` only)
 * the place id. The first failing check decides the response.
 */
module Validation {
  import opened Wrappers
  import opened JsValues

  /** The two actions the endpoint performs. */
  datatype Action = Publish | Create

  /** The body fields the checks read; `Undefined` where the field is absent. */
  datatype PublishBody = PublishBody(action: JsValue, placeId: JsValue, workspaceData: JsValue)

  /** Either the status and error message of a rejection, or the accepted action. */
  datatype Verdict = Reject(status: int, error: string) | Accept(action: Action)

  const MinKeyLength: nat := 20

  const InvalidKey: string := "Invalid or missing API Key"
  const InvalidAction: string := "Invalid action. Must be \"publish\" or \"create\""
  const MissingWorkspace: string := "Missing workspace data"
  const PlaceIdRequired: string := "Place ID required for publish action"

  /** A key that is present and at least `MinKeyLength` characters long. */
  predicate KeyAccepted(apiKey: Option<string>) {
    apiKey.Some? && |apiKey.value| >= MinKeyLength
  }

  /** The action named by the body: exactly the string "publish" or "create". */
  function ActionOf(v: JsValue): (a: Option<Action>)
    ensures a == Some(Publish) <==> v == Str("publish")
    ensures a == Some(Create) <==> v == Str("create")
  {
    if v == Str("publish") then Some(Publish)
    else if v == Str("create") then Some(Create)
    else None
  }

  /** The validation chain, in the order the handler runs it. */
  function Validate(apiKey: Option<string>, body: PublishBody): (v: Verdict)
    ensures v.Reject? ==> v.status == 400 || v.status == 401
    ensures v.Reject? && v.status == 401 <==> !KeyAccepted(apiKey)
    ensures !KeyAccepted(apiKey) ==> v.error == InvalidKey
    ensures v.Accept? <==>
              KeyAccepted(apiKey) && ActionOf(body.action).Some? && Truthy(body.workspaceData)
              && (ActionOf(body.action) == Some(Publish) ==> Truthy(body.placeId))
    ensures v.Accept? ==> ActionOf(body.action) == Some(v.action)
  {
    if apiKey.None? || apiKey.value == "" || |apiKey.value| < MinKeyLength then
      Reject(401, InvalidKey)
    else if !Truthy(body.action) || (body.action != Str("publish") && body.action != Str("create")) then
      Reject(400, InvalidAction)
    else if !Truthy(body.workspaceData) then
      Reject(400, MissingWorkspace)
    else if body.action == Str("publish") && !Truthy(body.placeId) then
      Reject(400, PlaceIdRequired)
    else
      Accept(ActionOf(body.action).value)
  }

  // ---------------------------------------------------------------------------
  // A reference reading of the chain: an ordered list of checks, the first
  // failing one deciding.

  datatype Check = Check(passes: bool, rejection: Verdict)

  /** The rejection of the first check that fails, if any. */
  function FirstFailure(checks: seq<Check>): (r: Option<Verdict>)
    ensures r.None? <==> forall i :: 0 <= i < |checks| ==> checks[i].passes
    ensures r.Some? ==> exists i :: 0 <= i < |checks| && !checks[i].passes && r.value == checks[i].rejection
                                   && forall j :: 0 <= j < i ==> checks[j].passes
    decreases |checks|
  {
    if checks == [] then None
    else if !checks[0].passes then Some(checks[0].rejection)
    else FirstFailure(checks[1..])
  }

  /** The four checks of the publish endpoint, in order. */
  function Checks(apiKey: Option<string>, body: PublishBody): seq<Check> {
    [ Check(KeyAccepted(apiKey), Reject(401, InvalidKey)),
      Check(ActionOf(body.action).Some?, Reject(400, InvalidAction)),
      Check(Truthy(body.workspaceData), Reject(400, MissingWorkspace)),
      Check(ActionOf(body.action) != Some(Publish) || Truthy(body.placeId), Reject(400, PlaceIdRequired)) ]
  }

  /** The handler's chain is exactly "first failing check wins", and accepts only
      when every check passes. */
  lemma ValidateIsFirstFailure(apiKey: Option<string>, body: PublishBody)
    ensures FirstFailure(Checks(apiKey, body)) == (if Validate(apiKey, body).Reject? then Some(Validate(apiKey, body)) else None)
  {
    var cs := Checks(apiKey, body);
    var last := cs[1..][1..][1..];
    assert last[1..] == [];
    assert FirstFailure(last) == if last[0].passes then None else Some(last[0].rejection);
    assert FirstFailure(cs[1..][1..]) == if cs[2].passes then FirstFailure(last) else Some(cs[2].rejection);
  }

  /** A rejected key decides the response whatever the body holds. */
  lemma KeyCheckComesFirst(apiKey: Option<string>, b1: PublishBody, b2: PublishBody)
    requires !KeyAccepted(apiKey)
    ensures Validate(apiKey, b1) == Validate(apiKey, b2) == Reject(401, InvalidKey)
  {
  }

  /** An invalid action is reported even when the workspace data or place id is
      also missing. */
  lemma ActionCheckedBeforeWorkspace(apiKey: Option<string>, body: PublishBody)
    requires KeyAccepted(apiKey) && ActionOf(body.action).None?
    ensures Validate(apiKey, body) == Reject(400, InvalidAction)
  {
  }

  /** `create` never needs a place id: the place id does not change its verdict. */
  lemma CreateIgnoresPlaceId(apiKey: Option<string>, body: PublishBody, placeId: JsValue)
    requires body.action == Str("create")
    ensures Validate(apiKey, body) == Validate(apiKey, body.(placeId := placeId))
  {
  }

  /** `publish` with an absent or falsy place id is rejected once the earlier checks pass. */
  lemma PublishNeedsPlaceId(apiKey: Option<string>, body: PublishBody)
    requires KeyAccepted(apiKey) && body.action == Str("publish") && Truthy(body.workspaceData)
    ensures Validate(apiKey, body).Accept? <==> Truthy(body.placeId)
    ensures !Truthy(body.placeId) ==> Validate(apiKey, body) == Reject(400, PlaceIdRequired)
  {
  }
}

=== FILE: wrappers.dfy ===
/** Option and Result, used for absent values and for outcomes that may carry an error. */
module Wrappers {

  datatype Option<+T> = None | Some(value: T)

  datatype Result<+R, +E> = Ok(value: R) | Err(error: E)
}
